=== FILE: README.md ===
# Static UI overlay: canvas, layout presets and recorder

This project models the debug window of `realenv/envs/env_ui.py`, without its I/O.

`SimpleUI` keeps a `[width, height, 3]` sample buffer that starts white (255). `add_image` copies an image into a rectangle of the buffer. `clear` makes the buffer white again. `refresh` polls a key and drives a small video recorder. The three presets `SixViewUI`, `FourViewUI` and `TwoViewUI` fix the canvas size and paint flat placeholder panels. Their `update_*` methods then re-blit one modality each.

Modules:

- `Results` (`results.dfy`): `Option` and `Result`. An operation that raises in the source returns `Failure`. Where steps before the raise have already changed the UI, the failure carries the state they leave (`Ui.Raised`).
- `Canvas` (`canvas.dfy`): the buffer as a pure `Grid` indexed like numpy (`px[i][j][c]`, with `i` below the width). It holds `Blank`, `Clear`, `Blit`, and `AddImage` with numpy's shape rule, including broadcasting of a length-1 axis. It also has in-place `array3<int>` versions (`NewBuffer`, `FillInPlace`, `BlitInPlace`), each proved to leave the array holding the pure grid.
- `Layout` (`layout.dfy`): the presets as `Preset` values, painting (`Place`, `Construct`), and `Update` at the transposed offset `(POS[1], POS[0])`. It also holds the tiling and scenario lemmas.
- `Recording` (`recorder.dfy`): `is_recording` plus every writer ever opened. The last writer plays the role of `curr_output`. This module has `Start`, `End`, the key `Dispatch` and `WriteFrame`.
- `Ui` (`ui.dfy`): one UI value made of canvas, preset and recorder, with `Refresh`, `Clear`, the preset's `update_*` as `UpdatePanel`, and runs of refreshes. `Refresh` ends with pygame's `blit_array` of the axis-swapped buffer, which raises on every non-square canvas.

Parameters replace the environment: the recording switch `configs.ENABLE_UI_RECORDING` is `enabled`, and the value `cv2.waitKey(5)` returns is `key`.

## Model

| member | source | states |
|---|---|---|
| `Canvas.Blank` | realenv/envs/env_ui.py:22-23 | the new buffer has shape width × height × 3 and every sample is 255 |
| `Canvas.Clear` | realenv/envs/env_ui.py:30-31 | after `clear` every sample is 255 and the shape is unchanged |
| `Canvas.ClearIdempotent` | realenv/envs/env_ui.py:30-31 | two clears leave the same buffer as one |
| `Canvas.Blit` | realenv/envs/env_ui.py:26-28 | sample `[x+i, y+j]` equals `img[i, j]`; every pixel outside the rectangle is unchanged; the dimensions never change |
| `Canvas.AddImage` | realenv/envs/env_ui.py:26-28 | the slice assignment succeeds exactly when numpy accepts it: on each axis the image's extent equals the truncated slice's, or is 1; every image that fits is accepted; on success the truncated slice holds the image and every other pixel is unchanged; otherwise a shape-mismatch error names the slice's and the image's shapes |
| `Canvas.FitsIffSliceShapeAgrees` | realenv/envs/env_ui.py:28 | the fit condition is exactly "numpy's truncated slices have the image's extent on both axes" |
| `Canvas.BroadcastWritesNothing` | realenv/envs/env_ui.py:28 | an image numpy accepts that does not fit has a length-1 axis starting at or past the edge; its slice is empty and `add_image` leaves the buffer unchanged |
| `Canvas.BlitIdempotent` | realenv/envs/env_ui.py:28 | blitting the same image at the same place twice equals blitting it once |
| `Canvas.NewBuffer` | realenv/envs/env_ui.py:22-23 | the freshly allocated array holds the all-255 grid, and its snapshot is exactly that grid |
| `Canvas.FillInPlace` | realenv/envs/env_ui.py:30-31 | after filling in place, the array holds the grid of that flat value |
| `Canvas.BlitInPlace` | realenv/envs/env_ui.py:26-28 | after an in-place slice assignment, the array holds `Blit` of its previous contents |
| `Canvas.HoldsIsSnapshot` | realenv/envs/env_ui.py:22-31 | an array that agrees sample by sample with a grid snapshots to exactly that grid |
| `Layout.Place` | realenv/envs/env_ui.py:102-122 | after the placeholders are blitted in order, each pixel holds the fill of the last panel covering it, or keeps its value if no panel covers it |
| `Layout.Construct` | realenv/envs/env_ui.py:97-99 | a preset's constructor yields a valid buffer of the preset's `UI_DIM` |
| `Layout.ConstructPaintsPanels` | realenv/envs/env_ui.py:102-122 | when panels tile the canvas, each pixel after construction holds its own panel's fill, and no sample is 255 if no fill is 255 |
| `Layout.SixViewTiles` | realenv/envs/env_ui.py:90-122 | the six placeholders lie inside 768 × 768, are pairwise disjoint and cover it |
| `Layout.FourViewTiles` | realenv/envs/env_ui.py:154-177 | the four placeholders lie inside 512 × 512, are pairwise disjoint and cover it |
| `Layout.TwoViewTiles` | realenv/envs/env_ui.py:197-212 | the two placeholders lie inside 512 × 256, are pairwise disjoint and cover it |
| `Layout.PresetsLeaveNoWhite` | realenv/envs/env_ui.py:97-122 | after any preset's constructor no sample is 255 |
| `Layout.Update` | realenv/envs/env_ui.py:124-218 | `update_<m>` writes the image at `(POS[1], POS[0])` and leaves every other pixel alone |
| `Layout.UpdateOverwritesPanel` | realenv/envs/env_ui.py:124-144 | a panel-sized update whose transposed offset is some panel's offset always fits, and it replaces exactly that panel's placeholder |
| `Layout.SixViewUpdateTargets` | realenv/envs/env_ui.py:124-144 | six-view RGB and semantics rewrite their own panels; map ↔ depth and physics ↔ normal land on each other's placeholders |
| `Layout.FourViewUpdateTargets` | realenv/envs/env_ui.py:179-190 | four-view physics and unfilled rewrite their own panels; RGB ↔ depth land on each other's placeholders |
| `Layout.TwoViewUpdateTargets` | realenv/envs/env_ui.py:214-218 | two-view physics rewrites its own panel; RGB lands on no placeholder |
| `Layout.SixViewRgbUpdate` | realenv/envs/env_ui.py:124-126 | on any 768 × 768 canvas, six-view `update_rgb` of a 512 × 512 image fits and overwrites exactly `[0,512)²`; every other pixel is unchanged |
| `Layout.SixViewMapPainted` | realenv/envs/env_ui.py:111-122 | after six-view construction the map placeholder `[512,768) × [0,256)` holds 120 |
| `Layout.SixViewRgbUpdateKeepsMap` | realenv/envs/env_ui.py:111-126 | on a freshly built six-view canvas, `update_rgb` leaves the map placeholder at 120 |
| `Layout.TwoViewPhysicsPainted` | realenv/envs/env_ui.py:209-212 | after two-view construction the physics placeholder `[0,256)²` holds 140 |
| `Layout.TwoViewRgbUpdateRejectsPanelImage` | realenv/envs/env_ui.py:214-215 | two-view `update_rgb` blits at `(0, 256)`, where the column slice is empty: an image fits only if it has no columns, numpy accepts it only if it has at most one column and at most 512 rows, an accepted image writes nothing, and a 256 × 256 image is rejected |
| `Layout.UpdateAtPlaceholder` | realenv/envs/env_ui.py:211 | corrected update: the image is written at the panel's own `(POS[0], POS[1])` |
| `Layout.PlaceholderUpdateOverwritesPanel` | realenv/envs/env_ui.py:204-212 | with the corrected offset, every panel-sized image fits and replaces exactly its own panel |
| `Layout.TwoViewRgbCorrected` | realenv/envs/env_ui.py:198-215 | with the corrected offset, two-view RGB fills `[256,512) × [0,256)` and the physics placeholder keeps 140 |
| `Recording.Start` | realenv/envs/env_ui.py:54-69 | while recording, the state is unchanged; otherwise it opens one new writer (MJPG, 22 fps, frame size `UI_DIM`) and sets the flag; without `UI_DIM` it raises |
| `Recording.End` | realenv/envs/env_ui.py:74-78 | it raises exactly when no writer was ever opened; otherwise it releases the current writer and clears the flag |
| `Recording.Dispatch` | realenv/envs/env_ui.py:36-40 | `'r'` is exactly `Start`, `'q'` is exactly `End`, other keys change nothing; it fails in exactly the two raising cases; it keeps the invariant and the frame count |
| `Recording.WriteFrame` | realenv/envs/env_ui.py:44-45 | while recording, the current writer gains exactly one frame and every other field and writer is kept; otherwise the recorder is unchanged |
| `Recording.AtMostOneOpen` | realenv/envs/env_ui.py:54-77 | in every reachable state at most one writer is open, and it is open exactly while recording |
| `Recording.StartTwiceOpensOnce` | realenv/envs/env_ui.py:56-57 | `start(); start()` equals `start()` and leaves exactly one open writer |
| `Recording.StopThenStartOpensFresh` | realenv/envs/env_ui.py:54-77 | stop after start releases the writer; a later start appends a new, empty writer, with exactly one open |
| `Ui.NewSimple` | realenv/envs/env_ui.py:18-24 | construction yields an all-255 buffer of the given size, not recording, with no output |
| `Ui.NewPreset` | realenv/envs/env_ui.py:97-99 | a preset UI starts with the painted canvas, its `UI_DIM`, not recording and with no `curr_output`, so an early `'q'` raises |
| `Ui.Command` | realenv/envs/env_ui.py:36 | the command is the key reduced modulo 256 into `[0, 256)` |
| `Ui.Present` | realenv/envs/env_ui.py:47-48 | pushing the buffer raises exactly when the canvas is not square or has a zero side: the swapped array is height × width, while the surface is width × height with a zero side replaced by the desktop's size; the state is unchanged |
| `Ui.Refresh` | realenv/envs/env_ui.py:34-48 | the recorder after a key that does not raise is exactly `Recording.WriteFrame` of `Recording.Dispatch` of the key, so `'r'` opens a fresh writer, `'q'` releases the current one and the frame goes to the current writer; the flag follows the key and one frame is written iff recording after dispatch; it raises exactly when recording is enabled and start lacks `UI_DIM` or stop has no output (state unchanged), or when the canvas is not square or has a zero side (after the frame is written); disabled, it changes nothing; the canvas is never changed |
| `Ui.Clear` | realenv/envs/env_ui.py:30-32 | `clear` leaves the buffer white even when its refresh raises; the recorder and the outcome are those of the refresh |
| `Ui.ClearTwiceSameBuffer` | realenv/envs/env_ui.py:30-32 | two `clear` calls leave the same buffer as one, whether or not either raises |
| `Ui.UpdatePanel` | realenv/envs/env_ui.py:124-218 | a preset UI's `update_<m>` succeeds exactly when numpy accepts the image at the transposed offset of its own preset's panel; a fitting image is written as `Layout.Update` writes it, an accepted one that does not fit changes nothing, and the recorder and preset are untouched |
| `Ui.TwoViewNeverShows` | realenv/envs/env_ui.py:197-218 | on a two-view UI, `update_rgb` either raises or leaves the UI as it was, and every `refresh` raises |
| `Ui.RunCountsFrames` | realenv/envs/env_ui.py:34-45 | over any run that does not raise, the frames written equal the number of refreshes made while recording, counted from the keys alone |
| `Ui.SessionFillsCurrentWriter` | realenv/envs/env_ui.py:44-48 | on a non-empty square canvas, while recording with no `'q'`, each refresh adds one frame to the same writer, whose frame size is the UI's `UI_DIM` throughout (every reachable UI keeps each writer's size equal to `UI_DIM`) |

## Left out

- Display output: the pixels `pygame.display.flip` and `surfarray.blit_array` put on the screen (lines 21, 47-48). They do not change the modelled state. Only `blit_array`'s shape check is modelled, as `Ui.Present`. That check, which raises `ValueError` when the array's first two axes differ from the surface's width and height, is pygame's behaviour. So is `set_mode` taking the desktop's size for a side given as 0; the desktop is assumed to have non-zero size. pygame itself is not part of this model.
- OpenCV `imshow`, the encoder and the frame contents. A writer is an open/released resource with a frame counter. The `uint8` cast and the BGR→RGB swap (lines 42-45) are not modelled, and samples are integers rather than floats. A frame is always counted, although on the two-view preset the `[512, 256, 3]` frame is 256 wide and 512 high to OpenCV while the writer was opened for 512 × 256; OpenCV typically drops such a frame.
- A `VideoWriter` that fails to open still takes `write` calls silently in OpenCV. Open failures are not modelled.
- File names built from `datetime.now()` under `RECORD_ROOT` (lines 16, 59-64) depend on the clock and the filesystem. A fresh output is modelled as a new entry in the writer list.
- `print` calls and the empty `make_video` (lines 55, 71-72, 75) have no effect on the state.
- Images with other than three channels or with fewer than three axes, and negative (from-the-end) offsets, are not modelled. Offsets are natural numbers. numpy could broadcast such images too.
- The unused `Profiler`, PIL and scipy imports, and the infinite demo loops `main6`, `main4` and `main2` (lines 221-322), are not modelled.
- `Recording.End`: `end_record` before any `start_record` raises `AttributeError` in the code. The model follows the code and returns `Failure(MissingOutput)` rather than treating it as a no-op.
- `Layout.Construct`: its own contract states only validity and size. The painted contents are stated by `Layout.Place` and `Layout.ConstructPaintsPanels`.

## Findings

| source | as written | input that shows it | evidently intended | confidence | as-written member | corrected member |
|---|---|---|---|---|---|---|
| realenv/envs/env_ui.py:214-215 | `TwoViewUI.update_rgb` calls `add_image(rgb, POS_RGB[1], POS_RGB[0])`, which is `(0, 256)`, on a `[512, 256, 3]` buffer | any 256 × 256 image, such as the one `main2` passes at line 310: the slice `[0:256, 256:512]` truncates to width 0 and numpy raises | the image replaces the RGB placeholder `[256,512) × [0,256)` | medium, not executed | `Layout.TwoViewRgbUpdateRejectsPanelImage` | `Layout.UpdateAtPlaceholder` |

The as-written update is `Layout.Update`. It is kept as the source writes it, with its fit precondition unchanged. `Layout.TwoViewRgbUpdateRejectsPanelImage` proves three things. The precondition holds only for images with no columns. `Canvas.AddImage` there accepts only images with at most one column and writes nothing. It fails on the 256 × 256 panel image. The corrected `Layout.UpdateAtPlaceholder` blits at the panel's own offset. `Layout.PlaceholderUpdateOverwritesPanel` and `Layout.TwoViewRgbCorrected` prove that it accepts every panel-sized image and replaces exactly that panel.

On the square presets, the transposed offset always fits. But it lands on another modality's placeholder for six-view map/depth and physics/normal, and for four-view RGB/depth; see the `*UpdateTargets` lemmas. The class docstrings place panels in display coordinates, so that may be intended, and it is recorded here without a claim.

=== FILE: canvas.dfy ===
/** The sample buffer of a `SimpleUI`: a `[width, height, 3]` grid of samples,
    the rectangular copy `add_image` performs by slice assignment, and the
    refill with 255 that `clear` performs.

    A grid is indexed as numpy indexes `screen_arr`: `px[i][j][c]` with
    `i < rows` (the canvas width), `j < cols` (the canvas height) and `c < 3`.
    An image passed to `add_image` is a grid of the same kind, `rows` being its
    `shape[0]` and `cols` its `shape[1]`. */
module Canvas {
  import opened Results

  /** Colour channels per pixel. */
  const Channels: nat := 3

  /** The value `clear` and construction fill every sample with. */
  const WhiteLevel: int := 255

  type Pixel = seq<int>

  datatype Grid = Grid(rows: nat, cols: nat, px: seq<seq<Pixel>>) {

    /** The grid really has shape `[rows, cols, 3]`. */
    predicate Valid() {
      && |px| == rows
      && (forall i | 0 <= i < rows :: |px[i]| == cols)
      && (forall i, j | 0 <= i < rows && 0 <= j < cols :: |px[i][j]| == Channels)
    }
  }

  /** A pixel whose three samples are all `v`, as `ndarray.fill(v)` leaves it. */
  function Gray(v: int): (p: Pixel)
    ensures |p| == Channels && forall c | 0 <= c < Channels :: p[c] == v
  {
    [v, v, v]
  }

  /** `np.zeros([rows, cols, 3])` followed by `fill(v)`. */
  function Solid(rows: nat, cols: nat, v: int): (g: Grid)
    ensures g.Valid() && g.rows == rows && g.cols == cols
    ensures forall i, j | 0 <= i < rows && 0 <= j < cols :: g.px[i][j] == Gray(v)
  {
    Grid(rows, cols, seq(rows, _ => seq(cols, _ => Gray(v))))
  }

  /** The buffer `SimpleUI.__init__` allocates and `clear` restores. */
  function Blank(width: nat, height: nat): (g: Grid)
    ensures g.Valid() && g.rows == width && g.cols == height
    ensures forall i, j, c | 0 <= i < width && 0 <= j < height && 0 <= c < Channels ::
      g.px[i][j][c] == WhiteLevel
  {
    Solid(width, height, WhiteLevel)
  }

  /** `clear`: every sample back to 255, shape kept. */
  function Clear(g: Grid): (r: Grid)
    requires g.Valid()
    ensures r.Valid() && r.rows == g.rows && r.cols == g.cols
    ensures forall i, j, c | 0 <= i < r.rows && 0 <= j < r.cols && 0 <= c < Channels ::
      r.px[i][j][c] == WhiteLevel
  {
    Blank(g.rows, g.cols)
  }

  /** The number of elements numpy's slice `start:start+len` keeps on an
      axis of length `dim`: the slice is truncated at the end of the axis. */
  function SliceLen(start: nat, len: nat, dim: nat): nat {
    if start >= dim then 0
    else if start + len <= dim then len
    else dim - start
  }

  /** Whether an image of `img.rows` x `img.cols` pixels placed at `(x, y)`
      lies inside a `rows` x `cols` buffer. An axis of length zero fits at any
      offset, because its slice is empty whatever the truncation. */
  predicate FitsWithin(rows: nat, cols: nat, img: Grid, x: nat, y: nat) {
    && (img.rows == 0 || x + img.rows <= rows)
    && (img.cols == 0 || y + img.cols <= cols)
  }

  predicate Fits(g: Grid, img: Grid, x: nat, y: nat) {
    FitsWithin(g.rows, g.cols, img, x, y)
  }

  /** Pixel `(i, j)` lies in the `h` x `w` rectangle whose corner is `(x, y)`. */
  predicate InRect(i: int, j: int, x: nat, y: nat, h: nat, w: nat) {
    x <= i < x + h && y <= j < y + w
  }

  /** `screen_arr[x:x+h, y:y+w, :] = img` when the shapes agree: inside the
      rectangle every pixel is the image's, outside nothing changes. */
  function Blit(g: Grid, img: Grid, x: nat, y: nat): (r: Grid)
    requires g.Valid() && img.Valid() && Fits(g, img, x, y)
    ensures r.Valid() && r.rows == g.rows && r.cols == g.cols
    ensures forall i, j | 0 <= i < img.rows && 0 <= j < img.cols ::
      r.px[x + i][y + j] == img.px[i][j]
    ensures forall i, j | 0 <= i < g.rows && 0 <= j < g.cols && InRect(i, j, x, y, img.rows, img.cols) ::
      r.px[i][j] == img.px[i - x][j - y]
    ensures forall i, j | 0 <= i < g.rows && 0 <= j < g.cols && !InRect(i, j, x, y, img.rows, img.cols) ::
      r.px[i][j] == g.px[i][j]
  {
    Grid(g.rows, g.cols,
      seq(g.rows, i requires 0 <= i < g.rows =>
        seq(g.cols, j requires 0 <= j < g.cols =>
          if InRect(i, j, x, y, img.rows, img.cols) then img.px[i - x][j - y] else g.px[i][j])))
  }

  /** numpy's assignment rule on one axis: the image's extent must equal the
      truncated slice's, or be 1, which numpy broadcasts onto the slice. */
  predicate AxisAccepts(start: nat, len: nat, dim: nat) {
    SliceLen(start, len, dim) == len || len == 1
  }

  /** Whether numpy accepts `screen_arr[x:x+rows, y:y+cols, :] = img`. */
  predicate Accepts(g: Grid, img: Grid, x: nat, y: nat) {
    AxisAccepts(x, img.rows, g.rows) && AxisAccepts(y, img.cols, g.cols)
  }

  /** What numpy raises when the truncated slice and the image cannot be
      broadcast together. */
  datatype BlitError = ShapeMismatch(target: (nat, nat), given: (nat, nat))

  /** `add_image(img, x, y)`: numpy truncates the slice at the buffer's edge
      and copies the image into it. An image that fits is copied whole; a
      length-1 axis that meets an empty slice is accepted and nothing is
      written; any other disagreement raises before anything is written. */
  function AddImage(g: Grid, img: Grid, x: nat, y: nat): (r: Result<Grid, BlitError>)
    requires g.Valid() && img.Valid()
    ensures r.Success? <==> Accepts(g, img, x, y)
    ensures Fits(g, img, x, y) ==> r.Success?
    ensures r.Success? ==> r.value.Valid() && r.value.rows == g.rows && r.value.cols == g.cols
    ensures r.Success? ==>
      forall i, j, c | 0 <= i < SliceLen(x, img.rows, g.rows) && 0 <= j < SliceLen(y, img.cols, g.cols) && 0 <= c < Channels ::
        r.value.px[x + i][y + j][c] == img.px[i][j][c]
    ensures r.Success? ==>
      forall i, j | 0 <= i < g.rows && 0 <= j < g.cols &&
        !InRect(i, j, x, y, SliceLen(x, img.rows, g.rows), SliceLen(y, img.cols, g.cols)) ::
        r.value.px[i][j] == g.px[i][j]
    ensures r.Failure? ==>
      r.error == ShapeMismatch((SliceLen(x, img.rows, g.rows), SliceLen(y, img.cols, g.cols)), (img.rows, img.cols))
  {
    if Fits(g, img, x, y) then Success(Blit(g, img, x, y))
    else if Accepts(g, img, x, y) then Success(g)
    else Failure(ShapeMismatch((SliceLen(x, img.rows, g.rows), SliceLen(y, img.cols, g.cols)), (img.rows, img.cols)))
  }

  /** The fit condition is exactly "the truncated slices have the image's
      extent on both axes", numpy's rule without broadcasting. */
  lemma FitsIffSliceShapeAgrees(g: Grid, img: Grid, x: nat, y: nat)
    ensures Fits(g, img, x, y) <==>
      (SliceLen(x, img.rows, g.rows) == img.rows && SliceLen(y, img.cols, g.cols) == img.cols)
  {
  }

  /** Broadcasting only ever adds the empty case: an image numpy accepts but
      that does not fit has a length-1 axis starting at or past the edge, its
      slice is empty, and `add_image` leaves the buffer as it was. */
  lemma {:induction false} BroadcastWritesNothing(g: Grid, img: Grid, x: nat, y: nat)
    requires g.Valid() && img.Valid() && Accepts(g, img, x, y) && !Fits(g, img, x, y)
    ensures (img.rows == 1 && x >= g.rows) || (img.cols == 1 && y >= g.cols)
    ensures SliceLen(x, img.rows, g.rows) == 0 || SliceLen(y, img.cols, g.cols) == 0
    ensures AddImage(g, img, x, y) == Success(g)
  {
    FitsIffSliceShapeAgrees(g, img, x, y);
  }

  /** Two valid grids of one shape that agree on every pixel are equal. */
  lemma GridsEqual(a: Grid, b: Grid)
    requires a.Valid() && b.Valid() && a.rows == b.rows && a.cols == b.cols
    requires forall i, j | 0 <= i < a.rows && 0 <= j < a.cols :: a.px[i][j] == b.px[i][j]
    ensures a == b
  {
    forall i | 0 <= i < a.rows
      ensures a.px[i] == b.px[i]
    {
      assert |a.px[i]| == |b.px[i]| == a.cols;
    }
  }

  /** `clear(); clear()` leaves the buffer one `clear()` leaves. */
  lemma ClearIdempotent(g: Grid)
    requires g.Valid()
    ensures Clear(Clear(g)) == Clear(g)
  {
  }

  /** Blitting an image and then blitting it again changes nothing more. */
  lemma {:induction false} BlitIdempotent(g: Grid, img: Grid, x: nat, y: nat)
    requires g.Valid() && img.Valid() && Fits(g, img, x, y)
    ensures Blit(Blit(g, img, x, y), img, x, y) == Blit(g, img, x, y)
  {
    var once := Blit(g, img, x, y);
    var twice := Blit(once, img, x, y);
    forall i, j | 0 <= i < g.rows && 0 <= j < g.cols
      ensures twice.px[i][j] == once.px[i][j]
    {
      if InRect(i, j, x, y, img.rows, img.cols) {
        assert twice.px[x + (i - x)][y + (j - y)] == img.px[i - x][j - y];
        assert once.px[x + (i - x)][y + (j - y)] == img.px[i - x][j - y];
      }
    }
    GridsEqual(twice, once);
  }

  // ---------------------------------------------------------------------
  // The same operations on a mutable `array3<int>`, as the source keeps the
  // buffer, each proved to leave the array holding the pure model's grid.
  // ---------------------------------------------------------------------

  /** The grid an array currently holds. */
  function Snapshot(a: array3<int>): (g: Grid)
    requires a.Length2 == Channels
    reads a
    ensures g.Valid() && g.rows == a.Length0 && g.cols == a.Length1
    ensures forall i, j, c | 0 <= i < a.Length0 && 0 <= j < a.Length1 && 0 <= c < Channels ::
      g.px[i][j][c] == a[i, j, c]
  {
    Grid(a.Length0, a.Length1,
      seq(a.Length0, i requires 0 <= i < a.Length0 reads a =>
        seq(a.Length1, j requires 0 <= j < a.Length1 reads a =>
          [a[i, j, 0], a[i, j, 1], a[i, j, 2]])))
  }

  /** An array and a grid of one shape that agree sample by sample. */
  predicate Holds(a: array3<int>, g: Grid)
    requires g.Valid()
    reads a
  {
    && a.Length0 == g.rows && a.Length1 == g.cols && a.Length2 == Channels
    && forall i, j, c | 0 <= i < g.rows && 0 <= j < g.cols && 0 <= c < Channels :: a[i, j, c] == g.px[i][j][c]
  }

  /** An array that holds a grid snapshots to exactly that grid. */
  lemma HoldsIsSnapshot(a: array3<int>, g: Grid)
    requires g.Valid() && Holds(a, g)
    ensures Snapshot(a) == g
  {
    var s := Snapshot(a);
    forall i, j | 0 <= i < g.rows && 0 <= j < g.cols
      ensures s.px[i][j] == g.px[i][j]
    {
      assert |s.px[i][j]| == |g.px[i][j]| == Channels;
    }
    GridsEqual(s, g);
  }

  /** `ndarray.fill(v)` on the buffer, row by row. */
  method FillInPlace(a: array3<int>, v: int)
    requires a.Length2 == Channels
    modifies a
    ensures Holds(a, Solid(a.Length0, a.Length1, v))
  {
    var i := 0;
    while i < a.Length0
      invariant 0 <= i <= a.Length0
      invariant forall p, q, c | 0 <= p < i && 0 <= q < a.Length1 && 0 <= c < Channels :: a[p, q, c] == v
    {
      var j := 0;
      while j < a.Length1
        invariant 0 <= j <= a.Length1
        invariant forall p, q, c | 0 <= p < i && 0 <= q < a.Length1 && 0 <= c < Channels :: a[p, q, c] == v
        invariant forall q, c | 0 <= q < j && 0 <= c < Channels :: a[i, q, c] == v
      {
        a[i, j, 0], a[i, j, 1], a[i, j, 2] := v, v, v;
        j := j + 1;
      }
      i := i + 1;
    }
  }

  /** `SimpleUI.__init__`'s buffer: `np.zeros([width, height, 3])` then `fill(255)`. */
  method NewBuffer(width: nat, height: nat) returns (a: array3<int>)
    ensures fresh(a)
    ensures Holds(a, Blank(width, height)) && Snapshot(a) == Blank(width, height)
  {
    a := new int[width, height, Channels];
    FillInPlace(a, WhiteLevel);
    HoldsIsSnapshot(a, Blank(width, height));
  }

  /** `screen_arr[x:x+h, y:y+w, :] = img` in place: the array ends up holding
      `Blit` of what it held before. */
  method BlitInPlace(a: array3<int>, img: Grid, x: nat, y: nat)
    requires a.Length2 == Channels && img.Valid() && FitsWithin(a.Length0, a.Length1, img, x, y)
    modifies a
    ensures Holds(a, Blit(old(Snapshot(a)), img, x, y)) && Snapshot(a) == Blit(old(Snapshot(a)), img, x, y)
  {
    ghost var before := Snapshot(a);
    var i := 0;
    while i < img.rows
      invariant 0 <= i <= img.rows
      invariant forall p, q, c | 0 <= p < a.Length0 && 0 <= q < a.Length1 && 0 <= c < Channels ::
        a[p, q, c] == (if InRect(p, q, x, y, i, img.cols) then img.px[p - x][q - y][c] else before.px[p][q][c])
    {
      var j := 0;
      while j < img.cols
        invariant 0 <= j <= img.cols
        invariant forall p, q, c | 0 <= p < a.Length0 && 0 <= q < a.Length1 && 0 <= c < Channels ::
          a[p, q, c] ==
            (if InRect(p, q, x, y, i, img.cols) || (p == x + i && y <= q < y + j) then img.px[p - x][q - y][c]
             else before.px[p][q][c])
      {
        var pixel := img.px[i][j];
        a[x + i, y + j, 0], a[x + i, y + j, 1], a[x + i, y + j, 2] := pixel[0], pixel[1], pixel[2];
        j := j + 1;
      }
      i := i + 1;
    }
    HoldsIsSnapshot(a, Blit(before, img, x, y));
  }
}

=== FILE: layout.dfy ===
/** The three layout presets (`SixViewUI`, `FourViewUI`, `TwoViewUI`): their
    canvas size, the placeholder panels `add_all_images` paints, and the
    `update_*` methods that re-blit one modality.

    A panel's position is the preset's `POS_*` pair `(x, y)`. Placeholders are
    blitted at `(POS[0], POS[1])`; every `update_*` method blits at the
    transposed offset `(POS[1], POS[0])`. The model keeps both as written. */
module Layout {
  import opened Results
  import opened Canvas

  datatype Modality = Rgb | Map | Physics | Depth | Semantic | Normal | Unfilled

  /** A square placeholder: a `side` x `side` image filled with `fill`,
      blitted at `(x, y)`. */
  datatype Panel = Panel(modality: Modality, x: nat, y: nat, side: nat, fill: int)

  /** A preset: its canvas size `UI_DIM = (width, height)` and its panels in
      the order `add_all_images` paints them. */
  datatype Preset = Preset(width: nat, height: nat, panels: seq<Panel>)

  const SixView := Preset(768, 768, [
    Panel(Rgb, 0, 0, 512, 100),
    Panel(Semantic, 512, 512, 256, 180),
    Panel(Depth, 0, 512, 256, 120),
    Panel(Physics, 512, 256, 256, 140),
    Panel(Normal, 256, 512, 256, 200),
    Panel(Map, 512, 0, 256, 120)
  ])

  const FourView := Preset(512, 512, [
    Panel(Rgb, 0, 256, 256, 100),
    Panel(Depth, 256, 0, 256, 120),
    Panel(Physics, 0, 0, 256, 140),
    Panel(Unfilled, 256, 256, 256, 180)
  ])

  const TwoView := Preset(512, 256, [
    Panel(Rgb, 256, 0, 256, 100),
    Panel(Physics, 0, 0, 256, 140)
  ])

  /** The image `add_all_images` builds for a panel. */
  function Placeholder(pn: Panel): (img: Grid)
    ensures img.Valid() && img.rows == pn.side && img.cols == pn.side
  {
    Solid(pn.side, pn.side, pn.fill)
  }

  /** Pixel `(i, j)` is covered by the panel's placeholder rectangle. */
  predicate InPanel(pn: Panel, i: int, j: int) {
    InRect(i, j, pn.x, pn.y, pn.side, pn.side)
  }

  /** The panel's placeholder lies inside a `width` x `height` canvas. */
  predicate Inside(width: nat, height: nat, pn: Panel) {
    pn.side == 0 || (pn.x + pn.side <= width && pn.y + pn.side <= height)
  }

  predicate AllFit(width: nat, height: nat, ps: seq<Panel>) {
    forall k | 0 <= k < |ps| :: Inside(width, height, ps[k])
  }

  /** Some panel covers pixel `(i, j)`. */
  predicate Covered(ps: seq<Panel>, i: int, j: int) {
    exists k | 0 <= k < |ps| :: InPanel(ps[k], i, j)
  }

  /** The two panels' rectangles share no pixel. */
  predicate Apart(a: Panel, b: Panel) {
    || a.x + a.side <= b.x || b.x + b.side <= a.x
    || a.y + a.side <= b.y || b.y + b.side <= a.y
  }

  /** The panels lie inside the canvas, are pairwise disjoint and cover it. */
  predicate Tiles(p: Preset) {
    && AllFit(p.width, p.height, p.panels)
    && (forall k, l | 0 <= k < l < |p.panels| :: Apart(p.panels[k], p.panels[l]))
    && (forall i, j | 0 <= i < p.width && 0 <= j < p.height :: Covered(p.panels, i, j))
  }

  /** The index of the last panel in painting order that covers `(i, j)`:
      the one whose fill a sequence of blits leaves there. */
  function TopPanel(ps: seq<Panel>, i: int, j: int): (r: Option<nat>)
    ensures r.Some? ==> r.value < |ps| && InPanel(ps[r.value], i, j)
    ensures r.Some? ==> forall k | r.value < k < |ps| :: !InPanel(ps[k], i, j)
    ensures r.None? <==> forall k | 0 <= k < |ps| :: !InPanel(ps[k], i, j)
    decreases |ps|
  {
    if |ps| == 0 then None
    else match TopPanel(ps[1..], i, j)
      case Some(k) => Some(k + 1)
      case None => if InPanel(ps[0], i, j) then Some(0) else None
  }

  /** Blitting each panel's placeholder in turn: a pixel ends up with the
      fill of the last panel covering it, or keeps its value if none does. */
  function Place(g: Grid, ps: seq<Panel>): (r: Grid)
    requires g.Valid() && AllFit(g.rows, g.cols, ps)
    ensures r.Valid() && r.rows == g.rows && r.cols == g.cols
    ensures forall i, j | 0 <= i < g.rows && 0 <= j < g.cols ::
      r.px[i][j] == (match TopPanel(ps, i, j) case None => g.px[i][j] case Some(k) => Gray(ps[k].fill))
    decreases |ps|
  {
    if |ps| == 0 then g
    else
      assert Inside(g.rows, g.cols, ps[0]);
      Place(Blit(g, Placeholder(ps[0]), ps[0].x, ps[0].y), ps[1..])
  }

  /** A preset's constructor: a blank `width` x `height` canvas, then
      `add_all_images`. */
  function Construct(p: Preset): (g: Grid)
    requires AllFit(p.width, p.height, p.panels)
    ensures g.Valid() && g.rows == p.width && g.cols == p.height
  {
    Place(Blank(p.width, p.height), p.panels)
  }

  /** When the panels tile the canvas, construction leaves every pixel with
      the fill of the one panel covering it, and so no 255 anywhere if no
      fill is 255. */
  lemma {:induction false} ConstructPaintsPanels(p: Preset)
    requires Tiles(p)
    ensures forall k, i, j | 0 <= k < |p.panels| && InPanel(p.panels[k], i, j) ::
      Construct(p).px[i][j] == Gray(p.panels[k].fill)
    ensures (forall k | 0 <= k < |p.panels| :: p.panels[k].fill != WhiteLevel) ==>
      forall i, j, c | 0 <= i < p.width && 0 <= j < p.height && 0 <= c < Channels ::
        Construct(p).px[i][j][c] != WhiteLevel
  {
    var g := Construct(p);
    var ps := p.panels;
    forall k, i, j | 0 <= k < |ps| && InPanel(ps[k], i, j)
      ensures g.px[i][j] == Gray(ps[k].fill)
    {
      var top := TopPanel(ps, i, j);
      assert top.Some?;
    }
    if forall k | 0 <= k < |ps| :: ps[k].fill != WhiteLevel {
      forall i, j, c | 0 <= i < p.width && 0 <= j < p.height && 0 <= c < Channels
        ensures g.px[i][j][c] != WhiteLevel
      {
        assert Covered(ps, i, j);
        var k :| 0 <= k < |ps| && InPanel(ps[k], i, j);
        assert g.px[i][j] == Gray(ps[k].fill);
      }
    }
  }

  lemma SixViewTiles()
    ensures Tiles(SixView)
  {
    var ps := SixView.panels;
    forall i, j | 0 <= i < 768 && 0 <= j < 768
      ensures Covered(ps, i, j)
    {
      if i < 512 && j < 512 { assert InPanel(ps[0], i, j); }
      else if i >= 512 && j >= 512 { assert InPanel(ps[1], i, j); }
      else if i < 256 { assert InPanel(ps[2], i, j); }
      else if i < 512 { assert InPanel(ps[4], i, j); }
      else if j >= 256 { assert InPanel(ps[3], i, j); }
      else { assert InPanel(ps[5], i, j); }
    }
  }

  lemma FourViewTiles()
    ensures Tiles(FourView)
  {
    var ps := FourView.panels;
    forall i, j | 0 <= i < 512 && 0 <= j < 512
      ensures Covered(ps, i, j)
    {
      if i < 256 && j < 256 { assert InPanel(ps[2], i, j); }
      else if i < 256 { assert InPanel(ps[0], i, j); }
      else if j < 256 { assert InPanel(ps[1], i, j); }
      else { assert InPanel(ps[3], i, j); }
    }
  }

  lemma TwoViewTiles()
    ensures Tiles(TwoView)
  {
    var ps := TwoView.panels;
    forall i, j | 0 <= i < 512 && 0 <= j < 256
      ensures Covered(ps, i, j)
    {
      if i < 256 { assert InPanel(ps[1], i, j); } else { assert InPanel(ps[0], i, j); }
    }
  }

  /** Every preset's constructor leaves no sample at 255. */
  lemma PresetsLeaveNoWhite(p: Preset)
    requires p == SixView || p == FourView || p == TwoView
    ensures Tiles(p)
    ensures forall i, j, c | 0 <= i < p.width && 0 <= j < p.height && 0 <= c < Channels ::
      Construct(p).px[i][j][c] != WhiteLevel
  {
    if p == SixView { SixViewTiles(); } else if p == FourView { FourViewTiles(); } else { TwoViewTiles(); }
    ConstructPaintsPanels(p);
  }

  /** The first panel, from index `from` on, that shows modality `m`. */
  function FindFrom(ps: seq<Panel>, m: Modality, from: nat): (r: Option<nat>)
    ensures r.Some? ==> from <= r.value < |ps| && ps[r.value].modality == m
    ensures r.None? ==> forall k | from <= k < |ps| :: ps[k].modality != m
    decreases |ps| - from
  {
    if from >= |ps| then None
    else if ps[from].modality == m then Some(from)
    else FindFrom(ps, m, from + 1)
  }

  /** The panel a preset shows modality `m` in, if it has one. */
  function Find(ps: seq<Panel>, m: Modality): (r: Option<nat>)
    ensures r.Some? ==> r.value < |ps| && ps[r.value].modality == m
    ensures r.None? ==> forall k | 0 <= k < |ps| :: ps[k].modality != m
  {
    FindFrom(ps, m, 0)
  }

  /** The offset an `update_*` method blits at: `(POS[1], POS[0])`. */
  function UpdateOffset(pn: Panel): (nat, nat) {
    (pn.y, pn.x)
  }

  /** `update_<m>(img)` on a preset: `add_image(img, POS[1], POS[0])`. */
  function Update(p: Preset, m: Modality, g: Grid, img: Grid): (r: Grid)
    requires Find(p.panels, m).Some?
    requires g.Valid() && img.Valid()
    requires Fits(g, img, p.panels[Find(p.panels, m).value].y, p.panels[Find(p.panels, m).value].x)
    ensures r.Valid() && r.rows == g.rows && r.cols == g.cols
    ensures var pn := p.panels[Find(p.panels, m).value];
      forall i, j | 0 <= i < g.rows && 0 <= j < g.cols ::
        r.px[i][j] == (if InRect(i, j, pn.y, pn.x, img.rows, img.cols) then img.px[i - pn.y][j - pn.x] else g.px[i][j])
  {
    var pn := p.panels[Find(p.panels, m).value];
    var (ux, uy) := UpdateOffset(pn);
    Blit(g, img, ux, uy)
  }

  /** The panel `update_<m>` belongs to. */
  function PanelFor(p: Preset, m: Modality): (pn: Panel)
    requires Find(p.panels, m).Some?
    ensures pn in p.panels && pn.modality == m
  {
    p.panels[Find(p.panels, m).value]
  }

  /** `update_<m>` writes a panel-sized image exactly over panel `n`'s
      placeholder: the transposed offset of `m` is the offset of `n`. */
  predicate LandsOn(p: Preset, m: Modality, n: Modality) {
    && Find(p.panels, m).Some? && Find(p.panels, n).Some?
    && UpdateOffset(PanelFor(p, m)) == (PanelFor(p, n).x, PanelFor(p, n).y)
    && PanelFor(p, m).side == PanelFor(p, n).side
  }

  /** A panel-sized `update_<m>` that lands on panel `n` replaces exactly
      `n`'s placeholder rectangle and leaves every other pixel alone. */
  lemma UpdateOverwritesPanel(p: Preset, m: Modality, n: Modality, g: Grid, img: Grid)
    requires LandsOn(p, m, n) && AllFit(p.width, p.height, p.panels)
    requires g.Valid() && g.rows == p.width && g.cols == p.height
    requires img.Valid() && img.rows == PanelFor(p, m).side && img.cols == PanelFor(p, m).side
    ensures Fits(g, img, PanelFor(p, m).y, PanelFor(p, m).x)
    ensures var pn := PanelFor(p, n);
      forall i, j | 0 <= i < g.rows && 0 <= j < g.cols ::
        Update(p, m, g, img).px[i][j] == (if InPanel(pn, i, j) then img.px[i - pn.x][j - pn.y] else g.px[i][j])
  {
    var pn := PanelFor(p, n);
    var k :| 0 <= k < |p.panels| && p.panels[k] == pn;
    assert Inside(p.width, p.height, p.panels[k]);
  }

  /** Where the six-view `update_*` methods land: RGB and semantics are
      rewritten in place; map and depth, and physics and normals, land on
      each other's placeholder, because the offset is transposed. */
  lemma SixViewUpdateTargets()
    ensures LandsOn(SixView, Rgb, Rgb) && LandsOn(SixView, Semantic, Semantic)
    ensures LandsOn(SixView, Map, Depth) && LandsOn(SixView, Depth, Map)
    ensures LandsOn(SixView, Physics, Normal) && LandsOn(SixView, Normal, Physics)
  {
    var ps := SixView.panels;
    assert PanelFor(SixView, Rgb) == ps[0] && PanelFor(SixView, Semantic) == ps[1];
    assert PanelFor(SixView, Depth) == ps[2] && PanelFor(SixView, Physics) == ps[3];
    assert PanelFor(SixView, Normal) == ps[4] && PanelFor(SixView, Map) == ps[5];
  }

  /** Where the four-view `update_*` methods land: physics and unfilled are
      rewritten in place; RGB and depth land on each other's placeholder. */
  lemma FourViewUpdateTargets()
    ensures LandsOn(FourView, Physics, Physics) && LandsOn(FourView, Unfilled, Unfilled)
    ensures LandsOn(FourView, Rgb, Depth) && LandsOn(FourView, Depth, Rgb)
  {
  }

  /** Two-view `update_physics` rewrites its panel in place; `update_rgb`
      lands on no placeholder at all. */
  lemma TwoViewUpdateTargets()
    ensures LandsOn(TwoView, Physics, Physics)
    ensures !LandsOn(TwoView, Rgb, Rgb) && !LandsOn(TwoView, Rgb, Physics)
  {
  }

  /** Six-view `update_rgb` with a 512 x 512 image overwrites exactly
      `[0,512) x [0,512)` of any 768 x 768 canvas. */
  lemma SixViewRgbUpdate(g: Grid, img: Grid)
    requires g.Valid() && g.rows == 768 && g.cols == 768
    requires img.Valid() && img.rows == 512 && img.cols == 512
    ensures Fits(g, img, 0, 0)
    ensures var r := Update(SixView, Rgb, g, img);
      && r.rows == 768 && r.cols == 768
      && (forall i, j | 0 <= i < 512 && 0 <= j < 512 :: r.px[i][j] == img.px[i][j])
      && (forall i, j | 0 <= i < 768 && 0 <= j < 768 && !(i < 512 && j < 512) :: r.px[i][j] == g.px[i][j])
  {
    assert PanelFor(SixView, Rgb) == SixView.panels[0];
  }

  /** On a freshly built six-view canvas, `update_rgb` leaves the map
      placeholder `[512,768) x [0,256)` at its fill 120. */
  lemma SixViewRgbUpdateKeepsMap(img: Grid)
    requires img.Valid() && img.rows == 512 && img.cols == 512
    ensures Fits(Construct(SixView), img, 0, 0)
    ensures forall i, j | 512 <= i < 768 && 0 <= j < 256 ::
      Update(SixView, Rgb, Construct(SixView), img).px[i][j] == Gray(120)
  {
    SixViewMapPainted();
    SixViewRgbUpdate(Construct(SixView), img);
  }

  /** After six-view construction the map placeholder holds 120. */
  lemma SixViewMapPainted()
    ensures forall i, j | 512 <= i < 768 && 0 <= j < 256 :: Construct(SixView).px[i][j] == Gray(120)
  {
    SixViewTiles();
    ConstructPaintsPanels(SixView);
    forall i, j | 512 <= i < 768 && 0 <= j < 256
      ensures Construct(SixView).px[i][j] == Gray(120)
    {
      assert InPanel(SixView.panels[5], i, j);
    }
  }

  /** As written, two-view `update_rgb` blits at `(0, 256)` into a
      `[512, 256, 3]` buffer, where the column slice is always empty. Only an
      image with no columns fits; numpy also accepts one with a single
      column, broadcast onto the empty slice. Either way nothing is written,
      and the 256 x 256 image the panel is meant for is always rejected. */
  lemma TwoViewRgbUpdateRejectsPanelImage(g: Grid, img: Grid)
    requires g.Valid() && g.rows == TwoView.width && g.cols == TwoView.height && img.Valid()
    ensures UpdateOffset(PanelFor(TwoView, Rgb)) == (0, 256)
    ensures Fits(g, img, 0, 256) <==> img.cols == 0 && img.rows <= 512
    ensures AddImage(g, img, 0, 256).Success? <==> img.cols <= 1 && img.rows <= 512
    ensures AddImage(g, img, 0, 256).Success? ==> AddImage(g, img, 0, 256).value == g
    ensures img.rows == 256 && img.cols == 256 ==> AddImage(g, img, 0, 256).Failure?
  {
    if AddImage(g, img, 0, 256).Success? {
      if Fits(g, img, 0, 256) {
        GridsEqual(AddImage(g, img, 0, 256).value, g);
      } else {
        BroadcastWritesNothing(g, img, 0, 256);
      }
    }
  }

  /** `update_<m>` as evidently intended: the image goes over the modality's
      own placeholder, at `(POS[0], POS[1])`. */
  function UpdateAtPlaceholder(p: Preset, m: Modality, g: Grid, img: Grid): (r: Grid)
    requires Find(p.panels, m).Some?
    requires g.Valid() && img.Valid() && Fits(g, img, PanelFor(p, m).x, PanelFor(p, m).y)
    ensures r.Valid() && r.rows == g.rows && r.cols == g.cols
    ensures var pn := PanelFor(p, m);
      forall i, j | 0 <= i < g.rows && 0 <= j < g.cols ::
        r.px[i][j] == (if InRect(i, j, pn.x, pn.y, img.rows, img.cols) then img.px[i - pn.x][j - pn.y] else g.px[i][j])
  {
    var pn := PanelFor(p, m);
    Blit(g, img, pn.x, pn.y)
  }

  /** With the corrected offset every panel-sized image fits, on every preset
      and for every modality it shows, and replaces exactly that panel. */
  lemma PlaceholderUpdateOverwritesPanel(p: Preset, m: Modality, g: Grid, img: Grid)
    requires Find(p.panels, m).Some? && AllFit(p.width, p.height, p.panels)
    requires g.Valid() && g.rows == p.width && g.cols == p.height
    requires img.Valid() && img.rows == PanelFor(p, m).side && img.cols == PanelFor(p, m).side
    ensures Fits(g, img, PanelFor(p, m).x, PanelFor(p, m).y)
    ensures var pn := PanelFor(p, m);
      forall i, j | 0 <= i < g.rows && 0 <= j < g.cols ::
        UpdateAtPlaceholder(p, m, g, img).px[i][j] == (if InPanel(pn, i, j) then img.px[i - pn.x][j - pn.y] else g.px[i][j])
  {
    var k := Find(p.panels, m).value;
    assert Inside(p.width, p.height, p.panels[k]);
  }

  /** The two-view RGB panel under the corrected offset: a 256 x 256 image on
      a freshly built canvas fills `[256,512) x [0,256)` and the physics
      placeholder keeps its fill 140. */
  lemma TwoViewRgbCorrected(img: Grid)
    requires img.Valid() && img.rows == 256 && img.cols == 256
    ensures Fits(Construct(TwoView), img, 256, 0)
    ensures var r := UpdateAtPlaceholder(TwoView, Rgb, Construct(TwoView), img);
      && (forall i, j | 256 <= i < 512 && 0 <= j < 256 :: r.px[i][j] == img.px[i - 256][j])
      && (forall i, j | 0 <= i < 256 && 0 <= j < 256 :: r.px[i][j] == Gray(140))
  {
    TwoViewPhysicsPainted();
    assert PanelFor(TwoView, Rgb) == TwoView.panels[0];
  }

  /** After two-view construction the physics placeholder holds 140. */
  lemma TwoViewPhysicsPainted()
    ensures forall i, j | 0 <= i < 256 && 0 <= j < 256 :: Construct(TwoView).px[i][j] == Gray(140)
  {
    TwoViewTiles();
    ConstructPaintsPanels(TwoView);
    forall i, j | 0 <= i < 256 && 0 <= j < 256
      ensures Construct(TwoView).px[i][j] == Gray(140)
    {
      assert InPanel(TwoView.panels[1], i, j);
    }
  }
}

=== FILE: recorder.dfy ===
/** The video recorder inside `SimpleUI`: the `is_recording` flag, the
    writers `start_record` opens and `end_record` releases, and the key
    dispatch `refresh` performs.

    A writer is an abstract open/released resource with a frame counter; file
    names, the clock and the encoder are not modelled. Every writer ever
    opened is kept, oldest first, so the last one is `curr_output` and a
    leaked handle would show up as an earlier writer never released. */
module Recording {
  import opened Results

  /** The writer's frame rate and codec (`22.0`, `'MJPG'`). */
  const FramesPerSecond: nat := 22
  const Codec: string := "MJPG"

  /** `ord('r')` starts recording, `ord('q')` stops it. */
  const KeyStart: int := 114
  const KeyStop: int := 113

  /** An opened `cv2.VideoWriter`: frame size `UI_DIM`, frames written so
      far, and whether `release` has been called on it. */
  datatype Writer = Writer(codec: string, fps: nat, size: (nat, nat), frames: nat, released: bool)

  /** `is_recording` and every writer opened so far; `curr_output` is the last. */
  datatype Recorder = Recorder(recording: bool, outputs: seq<Writer>)

  /** `start_record` on a UI without `UI_DIM`, and `end_record` before any
      `start_record`, raise `AttributeError`. */
  datatype RecordError = MissingDimension | MissingOutput

  /** The state `SimpleUI.__init__` leaves: not recording, no `curr_output`. */
  const Idle := Recorder(false, [])

  /** `curr_output`, if it has ever been assigned. */
  function Current(r: Recorder): Option<Writer> {
    if |r.outputs| == 0 then None else Some(r.outputs[|r.outputs| - 1])
  }

  /** Every state reachable from `Idle`: all writers but the last are
      released, and the flag is set exactly when the last one is still open. */
  predicate Inv(r: Recorder) {
    && (forall k | 0 <= k < |r.outputs| - 1 :: r.outputs[k].released)
    && (r.recording <==> Current(r).Some? && !Current(r).value.released)
  }

  /** How many of the writers are still open. */
  function OpenCount(ws: seq<Writer>): nat
    decreases |ws|
  {
    if |ws| == 0 then 0
    else OpenCount(ws[..|ws| - 1]) + (if ws[|ws| - 1].released then 0 else 1)
  }

  /** Frames written across all writers. */
  function TotalFrames(ws: seq<Writer>): nat
    decreases |ws|
  {
    if |ws| == 0 then 0
    else TotalFrames(ws[..|ws| - 1]) + ws[|ws| - 1].frames
  }

  /** In a reachable state at most one writer is open, and it is open
      exactly while recording: no handle is ever leaked. */
  lemma {:induction false} AtMostOneOpen(r: Recorder)
    requires Inv(r)
    ensures OpenCount(r.outputs) == (if r.recording then 1 else 0)
  {
    if |r.outputs| > 0 {
      var init := r.outputs[..|r.outputs| - 1];
      AllReleasedNoneOpen(init);
    }
  }

  lemma {:induction false} AllReleasedNoneOpen(ws: seq<Writer>)
    requires forall k | 0 <= k < |ws| :: ws[k].released
    ensures OpenCount(ws) == 0
    decreases |ws|
  {
    if |ws| > 0 {
      AllReleasedNoneOpen(ws[..|ws| - 1]);
    }
  }

  /** `start_record`: ignored while recording; otherwise it opens one new
      writer of frame size `UI_DIM` and sets the flag. Without `UI_DIM` it
      raises before touching the state. */
  function Start(r: Recorder, dim: Option<(nat, nat)>): (res: Result<Recorder, RecordError>)
    ensures r.recording ==> res == Success(r)
    ensures !r.recording ==> (res.Failure? <==> dim.None?)
    ensures !r.recording && res.Success? ==>
      && res.value.recording
      && |res.value.outputs| == |r.outputs| + 1
      && res.value.outputs[..|r.outputs|] == r.outputs
      && Current(res.value) == Some(Writer(Codec, FramesPerSecond, dim.value, 0, false))
  {
    if r.recording then Success(r)
    else match dim
      case None => Failure(MissingDimension)
      case Some(d) => Success(Recorder(true, r.outputs + [Writer(Codec, FramesPerSecond, d, 0, false)]))
  }

  /** `end_record`: releases `curr_output` and clears the flag; raises if no
      writer was ever opened. Releasing an already released writer is a no-op. */
  function End(r: Recorder): (res: Result<Recorder, RecordError>)
    ensures res.Failure? <==> Current(r).None?
    ensures res.Success? ==>
      && !res.value.recording
      && |res.value.outputs| == |r.outputs|
      && res.value.outputs[..|r.outputs| - 1] == r.outputs[..|r.outputs| - 1]
      && Current(res.value) == Some(Current(r).value.(released := true))
  {
    if |r.outputs| == 0 then Failure(MissingOutput)
    else
      var n := |r.outputs|;
      Success(Recorder(false, r.outputs[..n - 1] + [r.outputs[n - 1].(released := true)]))
  }

  /** The flag after dispatching command `cmd`, whatever the writers do. */
  function NextFlag(recording: bool, cmd: int): bool {
    if cmd == KeyStart then true else if cmd == KeyStop then false else recording
  }

  /** `refresh`'s key handling: `'r'` calls `start_record`, `'q'` calls
      `end_record`, any other key changes nothing. */
  function Dispatch(r: Recorder, dim: Option<(nat, nat)>, cmd: int): (res: Result<Recorder, RecordError>)
    requires Inv(r)
    ensures res.Failure? <==>
      || (cmd == KeyStart && !r.recording && dim.None?)
      || (cmd == KeyStop && Current(r).None?)
    ensures res.Success? ==> Inv(res.value)
    ensures res.Success? ==> res.value.recording == NextFlag(r.recording, cmd)
    ensures res.Success? ==> TotalFrames(res.value.outputs) == TotalFrames(r.outputs)
    ensures cmd == KeyStart ==> res == Start(r, dim)
    ensures cmd == KeyStop ==> res == End(r)
    ensures cmd != KeyStart && cmd != KeyStop ==> res == Success(r)
  {
    if cmd == KeyStart then
      var res := Start(r, dim);
      if res.Success? && !r.recording then
        AppendKeepsTotal(r.outputs, Writer(Codec, FramesPerSecond, dim.value, 0, false));
        res
      else res
    else if cmd == KeyStop then
      var res := End(r);
      if res.Success? then
        ReplaceLastKeepsTotal(r.outputs, res.value.outputs);
        res
      else res
    else Success(r)
  }

  /** `curr_output.write(frame)` while recording. */
  function WriteFrame(r: Recorder): (res: Recorder)
    requires Inv(r)
    ensures Inv(res) && res.recording == r.recording && |res.outputs| == |r.outputs|
    ensures TotalFrames(res.outputs) == TotalFrames(r.outputs) + (if r.recording then 1 else 0)
    ensures r.recording ==> Current(res).value.frames == Current(r).value.frames + 1
    ensures !r.recording ==> res == r
    ensures r.recording ==>
      res.outputs == r.outputs[..|r.outputs| - 1] + [Current(r).value.(frames := Current(r).value.frames + 1)]
  {
    if r.recording then
      var n := |r.outputs|;
      var w := r.outputs[n - 1];
      var outs := r.outputs[..n - 1] + [w.(frames := w.frames + 1)];
      assert outs[..n - 1] == r.outputs[..n - 1];
      Recorder(true, outs)
    else r
  }

  lemma AppendKeepsTotal(ws: seq<Writer>, w: Writer)
    requires w.frames == 0
    ensures TotalFrames(ws + [w]) == TotalFrames(ws)
  {
    assert (ws + [w])[..|ws|] == ws;
  }

  lemma ReplaceLastKeepsTotal(ws: seq<Writer>, vs: seq<Writer>)
    requires |ws| == |vs| > 0 && ws[..|ws| - 1] == vs[..|vs| - 1]
    requires ws[|ws| - 1].frames == vs[|vs| - 1].frames
    ensures TotalFrames(ws) == TotalFrames(vs)
  {
  }

  /** `start_record(); start_record()` opens exactly one writer. */
  lemma StartTwiceOpensOnce(r: Recorder, dim: Option<(nat, nat)>)
    requires Inv(r) && Start(r, dim).Success?
    ensures Start(Start(r, dim).value, dim) == Start(r, dim)
    ensures OpenCount(Start(r, dim).value.outputs) == 1
  {
    var s := Start(r, dim).value;
    assert Inv(s);
    AtMostOneOpen(s);
  }

  /** `end_record()` after `start_record()` releases the writer, and a later
      `start_record()` opens a new one beside it, leaving exactly one open. */
  lemma StopThenStartOpensFresh(r: Recorder, dim: (nat, nat))
    requires Inv(r) && r.recording
    ensures End(r).Success? && !End(r).value.recording
    ensures var s := Start(End(r).value, Some(dim));
      && s.Success? && s.value.recording
      && |s.value.outputs| == |r.outputs| + 1
      && s.value.outputs[|r.outputs| - 1] == Current(r).value.(released := true)
      && Current(s.value) == Some(Writer(Codec, FramesPerSecond, dim, 0, false))
      && OpenCount(s.value.outputs) == 1
  {
    var e := End(r).value;
    var s := Start(e, Some(dim)).value;
    assert s.outputs[|r.outputs| - 1] == e.outputs[|r.outputs| - 1];
    assert Inv(s);
    AtMostOneOpen(s);
  }
}

=== FILE: results.dfy ===
/** Failure-compatible wrappers used by the canvas and recorder models. */
module Results {

  /** An optional value: a missing attribute or an absent resource is `None`. */
  datatype Option<+T> = None | Some(value: T)

  /** The outcome of an operation that can raise: `Failure` carries the error. */
  datatype Result<+T, +E> = Success(value: T) | Failure(error: E) {

    predicate IsFailure() {
      Failure?
    }

    function PropagateFailure<U>(): Result<U, E>
      requires Failure?
    {
      Failure(error)
    }

    function Extract(): T
      requires Success?
    {
      value
    }
  }
}

=== FILE: ui.dfy ===
/** A `SimpleUI` (or one of its presets) as one value: the sample buffer, the
    preset it was built as (which is what defines `UI_DIM`), and the recorder.

    `refresh` reads the recording switch `configs.ENABLE_UI_RECORDING` and the
    key `cv2.waitKey(5)` returns; both are parameters here. Of the display
    calls only the one that can raise is modelled: `blit_array` at the end
    of `refresh`.

    A call that raises returns `Failure` carrying the state it leaves behind,
    because the steps before the raise have already taken effect. */
module Ui {
  import opened Results
  import opened Canvas
  import opened Layout
  import opened Recording

  datatype Ui = Ui(canvas: Grid, layout: Option<Preset>, recorder: Recorder)

  /** The states the constructors and the operations below reach. Every
      writer was opened with the UI's `UI_DIM` as its frame size, so a bare
      `SimpleUI` never has one. */
  predicate Valid(ui: Ui) {
    && ui.canvas.Valid()
    && Inv(ui.recorder)
    && (ui.layout.Some? ==> ui.canvas.rows == ui.layout.value.width && ui.canvas.cols == ui.layout.value.height)
    && (forall k | 0 <= k < |ui.recorder.outputs| :: Dim(ui) == Some(ui.recorder.outputs[k].size))
  }

  /** `SimpleUI(width, height)`: a white buffer, no preset, not recording. */
  function NewSimple(width: nat, height: nat): (ui: Ui)
    ensures Valid(ui) && ui.canvas.rows == width && ui.canvas.cols == height
    ensures forall i, j, c | 0 <= i < width && 0 <= j < height && 0 <= c < Channels ::
      ui.canvas.px[i][j][c] == WhiteLevel
    ensures !ui.recorder.recording && Current(ui.recorder).None?
  {
    Ui(Blank(width, height), None, Idle)
  }

  /** `SixViewUI()`, `FourViewUI()`, `TwoViewUI()`: a blank canvas of the
      preset's size with its placeholders painted. */
  function NewPreset(p: Preset): (ui: Ui)
    requires AllFit(p.width, p.height, p.panels)
    ensures Valid(ui) && ui.layout == Some(p)
    ensures ui.canvas == Construct(p) && ui.recorder == Idle && Current(ui.recorder).None?
  {
    Ui(Construct(p), Some(p), Idle)
  }

  /** `UI_DIM`: defined only by the presets. */
  function Dim(ui: Ui): Option<(nat, nat)> {
    match ui.layout
    case None => None
    case Some(p) => Some((p.width, p.height))
  }

  /** `cv2.waitKey(5) % 256`. For a positive divisor Python's `%` and
      Dafny's agree (both land in `[0, 256)`), so the no-key result `-1`
      becomes 255 here as it does in the source. */
  function Command(key: int): (cmd: int)
    ensures 0 <= cmd < 256 && (cmd - key) % 256 == 0
  {
    key % 256
  }

  /** Why a call raised: the recorder's `AttributeError`, or pygame's
      `ValueError` when the array `blit_array` receives does not have the
      surface's dimensions. */
  datatype Fault = RecordFault(error: RecordError) | SurfaceMismatch(given: (nat, nat))

  /** A call that raised, with the state it left behind. */
  datatype Raised = Raised(fault: Fault, state: Ui)

  /** The state a call leaves, whether it returned or raised. */
  function After(r: Result<Ui, Raised>): Ui {
    match r
    case Success(ui) => ui
    case Failure(e) => e.state
  }

  /** The key makes `start_record` or `end_record` raise. */
  predicate KeyRaises(ui: Ui, key: int) {
    || (Command(key) == KeyStart && !ui.recorder.recording && Dim(ui).None?)
    || (Command(key) == KeyStop && Current(ui.recorder).None?)
  }

  /** The swapped buffer matches the surface `set_mode([width, height])`
      made. The surface is width x height, except that a side given as 0
      takes the desktop's (non-zero) size instead; the swapped array is
      height x width. They agree exactly on a non-empty square canvas. */
  predicate SurfaceAccepts(ui: Ui) {
    ui.canvas.rows == ui.canvas.cols && ui.canvas.rows > 0
  }

  /** `blit_array(self.screen, np.swapaxes(self.screen_arr, 0, 1))`: pygame
      raises unless the array has the surface's dimensions. */
  function Present(ui: Ui): (r: Result<Ui, Raised>)
    ensures After(r) == ui
    ensures r.Success? <==> SurfaceAccepts(ui)
    ensures r.Failure? ==> r.error.fault == SurfaceMismatch((ui.canvas.cols, ui.canvas.rows))
  {
    if SurfaceAccepts(ui) then Success(ui)
    else Failure(Raised(SurfaceMismatch((ui.canvas.cols, ui.canvas.rows)), ui))
  }

  /** `refresh`: with recording enabled, dispatch the key, then write one
      frame if recording is on; in every case push the buffer to the
      surface. A key that makes the recorder raise stops it before anything
      changes; a canvas the surface does not accept raises only after the
      frame is written. */
  function Refresh(ui: Ui, enabled: bool, key: int): (r: Result<Ui, Raised>)
    requires Valid(ui)
    ensures Valid(After(r)) && After(r).canvas == ui.canvas && After(r).layout == ui.layout
    ensures r.Success? <==> SurfaceAccepts(ui) && !(enabled && KeyRaises(ui, key))
    ensures (r.Failure? && r.error.fault.RecordFault?) <==> enabled && KeyRaises(ui, key)
    ensures !enabled || KeyRaises(ui, key) ==> After(r) == ui
    ensures enabled && !KeyRaises(ui, key) ==>
      && After(r).recorder.recording == NextFlag(ui.recorder.recording, Command(key))
      && TotalFrames(After(r).recorder.outputs) ==
           TotalFrames(ui.recorder.outputs) + (if After(r).recorder.recording then 1 else 0)
    ensures enabled && !KeyRaises(ui, key) ==>
      After(r).recorder == WriteFrame(Dispatch(ui.recorder, Dim(ui), Command(key)).value)
  {
    if !enabled then Present(ui)
    else match Dispatch(ui.recorder, Dim(ui), Command(key))
      case Failure(e) => Failure(Raised(RecordFault(e), ui))
      case Success(rec) => Present(ui.(recorder := WriteFrame(rec)))
  }

  /** `clear`: refill the buffer with 255, then `refresh`. The refill has
      happened whether or not the refresh raises. */
  function Clear(ui: Ui, enabled: bool, key: int): (r: Result<Ui, Raised>)
    requires Valid(ui)
    ensures Valid(After(r)) && After(r).canvas.rows == ui.canvas.rows && After(r).canvas.cols == ui.canvas.cols
    ensures After(r).layout == ui.layout
    ensures forall i, j, c | 0 <= i < ui.canvas.rows && 0 <= j < ui.canvas.cols && 0 <= c < Channels ::
      After(r).canvas.px[i][j][c] == WhiteLevel
    ensures After(r).recorder == After(Refresh(ui, enabled, key)).recorder
    ensures r.Success? <==> Refresh(ui, enabled, key).Success?
    ensures r.Failure? ==> r.error.fault == Refresh(ui, enabled, key).error.fault
  {
    Refresh(ui.(canvas := Canvas.Clear(ui.canvas)), enabled, key)
  }

  /** `clear(); clear()` leaves the buffer a single `clear()` leaves, whether
      or not either call raises. */
  lemma ClearTwiceSameBuffer(ui: Ui, enabled: bool, k1: int, k2: int)
    requires Valid(ui)
    ensures After(Clear(After(Clear(ui, enabled, k1)), enabled, k2)).canvas == After(Clear(ui, enabled, k1)).canvas
  {
  }

  /** `update_<m>(img)` on a preset UI: `add_image(img, POS[1], POS[0])` with
      the UI's own preset. A bare `SimpleUI` has no `update_*` methods, and a
      preset has them only for the modalities it shows. */
  function UpdatePanel(ui: Ui, m: Modality, img: Grid): (r: Result<Ui, BlitError>)
    requires Valid(ui) && img.Valid()
    requires ui.layout.Some? && Find(ui.layout.value.panels, m).Some?
    ensures var pn := PanelFor(ui.layout.value, m);
      && (r.Success? <==> Accepts(ui.canvas, img, pn.y, pn.x))
      && (r.Success? ==> Valid(r.value) && r.value.layout == ui.layout && r.value.recorder == ui.recorder)
      && (r.Success? && Fits(ui.canvas, img, pn.y, pn.x) ==>
            r.value.canvas == Update(ui.layout.value, m, ui.canvas, img))
      && (r.Success? && !Fits(ui.canvas, img, pn.y, pn.x) ==> r.value == ui)
  {
    var pn := PanelFor(ui.layout.value, m);
    var (x, y) := UpdateOffset(pn);
    var canvas :- AddImage(ui.canvas, img, x, y);
    if Fits(ui.canvas, img, x, y) then
      assert canvas == Update(ui.layout.value, m, ui.canvas, img) by {
        GridsEqual(canvas, Update(ui.layout.value, m, ui.canvas, img));
      }
      Success(ui.(canvas := canvas))
    else
      BroadcastWritesNothing(ui.canvas, img, x, y);
      Success(ui)
  }

  /** On a two-view UI, `update_rgb` either raises or leaves the UI exactly
      as it was, and every `refresh` raises because the canvas is not square. */
  lemma TwoViewNeverShows(ui: Ui, img: Grid, enabled: bool, key: int)
    requires Valid(ui) && ui.layout == Some(TwoView) && img.Valid()
    ensures UpdatePanel(ui, Rgb, img).Success? ==> UpdatePanel(ui, Rgb, img).value == ui
    ensures Refresh(ui, enabled, key).Failure?
  {
    TwoViewRgbUpdateRejectsPanelImage(ui.canvas, img);
  }

  /** A sequence of `refresh` calls, one key per call, stopping at the first
      that raises. */
  function Run(ui: Ui, enabled: bool, keys: seq<int>): (r: Result<Ui, Raised>)
    requires Valid(ui)
    ensures Valid(After(r)) && After(r).canvas == ui.canvas && After(r).layout == ui.layout
    decreases |keys|
  {
    if |keys| == 0 then Success(ui)
    else
      var next :- Refresh(ui, enabled, keys[0]);
      Run(next, enabled, keys[1..])
  }

  /** The number of refreshes that end with recording on, computed from
      the keys alone. */
  function RecordedRefreshes(recording: bool, keys: seq<int>): nat
    decreases |keys|
  {
    if |keys| == 0 then 0
    else
      var flag := NextFlag(recording, Command(keys[0]));
      (if flag then 1 else 0) + RecordedRefreshes(flag, keys[1..])
  }

  /** The flag after the keys, computed from the keys alone. */
  function FinalFlag(recording: bool, keys: seq<int>): bool
    decreases |keys|
  {
    if |keys| == 0 then recording else FinalFlag(NextFlag(recording, Command(keys[0])), keys[1..])
  }

  /** Frames written equal the refreshes made while recording: over any run
      that does not raise, the frame count grows by exactly the number of
      refreshes whose dispatch leaves recording on, and the flag ends as the
      keys alone dictate. With recording disabled nothing happens at all. */
  lemma {:induction false} RunCountsFrames(ui: Ui, enabled: bool, keys: seq<int>)
    requires Valid(ui) && Run(ui, enabled, keys).Success?
    ensures !enabled ==> Run(ui, enabled, keys) == Success(ui)
    ensures enabled ==>
      && TotalFrames(Run(ui, enabled, keys).value.recorder.outputs) ==
           TotalFrames(ui.recorder.outputs) + RecordedRefreshes(ui.recorder.recording, keys)
      && Run(ui, enabled, keys).value.recorder.recording == FinalFlag(ui.recorder.recording, keys)
    decreases |keys|
  {
    if |keys| > 0 {
      var next := Refresh(ui, enabled, keys[0]).value;
      RunCountsFrames(next, enabled, keys[1..]);
    }
  }

  /** A recording session on a non-empty square canvas: while recording and without a
      `'q'`, every refresh adds one frame to the same writer, and no writer
      is opened. */
  lemma {:induction false} SessionFillsCurrentWriter(ui: Ui, keys: seq<int>)
    requires Valid(ui) && ui.recorder.recording && SurfaceAccepts(ui)
    requires forall k | 0 <= k < |keys| :: Command(keys[k]) != KeyStop
    ensures Run(ui, true, keys).Success?
    ensures var after := Run(ui, true, keys).value.recorder;
      && after.recording
      && |after.outputs| == |ui.recorder.outputs|
      && Current(after).value.frames == Current(ui.recorder).value.frames + |keys|
      && Current(after).value.size == Current(ui.recorder).value.size == Dim(ui).value
    decreases |keys|
  {
    if |keys| > 0 {
      var next := Refresh(ui, true, keys[0]).value;
      assert next.recorder.recording;
      SessionFillsCurrentWriter(next, keys[1..]);
    }
  }
}
